=== FILE: README.md ===
# gitlite object store and header parser, in Dafny

This project models the core of `gitlitelib.py`, a small re-implementation
of Git's object database. It covers three parts.

- **Loose-object framing** (`object_format.dfy`). `object_write` prepends
  the header `fmt SP decimal-length NUL` to an object's serialisation.
  `object_read` splits a decompressed buffer back into a type tag and a
  payload. It checks the declared length and dispatches on the tag to one
  of the four object classes.
- **The content-addressed store** (`object_store.dfy`). The `.git/objects`
  directory is a `map` from `(dir, file)` paths to stored bytes. SHA-1 and
  zlib are opaque deterministic functions passed in as a `Backend`.
  `object_write` stores the compressed frame under
  `objects/sha[0:2]/sha[2:]` and never overwrites an existing file.
  `object_hash` picks the class from the requested type and writes the
  object.
- **Key-value list with message** (`kvlm.dfy`). `kvlm_parse` reads the
  header block of commits and tags:
  - `key SP value` lines, where a value may continue on lines that start
    with a space;
  - then a blank line, then a free-form message.

  A repeated key turns its value into a list. The result is modelled as an
  insertion-ordered sequence of `(key, Single | Multi)` entries with unique
  keys, plus the message.

`bytes.dfy` holds the Python `bytes` operations the core relies on:
- `find`, which returns -1 when nothing is found;
- slicing with Python's negative-index and clamping rules;
- ASCII decimal numerals.

`results.dfy` holds the `Option` and `Result` types and the error kinds.
Python raises or returns `None` in these places:
- a failed `assert`;
- an `IndexError`;
- a bad length;
- an unknown type;
- a missing file.

In the model each of these is an `Err` value.

Four places where the code does not do what it evidently intends are
modelled twice, once as written and once corrected (see "## Findings"):
- the read path `sha[2:1]`;
- the missing-NUL case of the header split;
- the continuation scan of lines 390-393 when no newline ends a folded value;
- the value decoding on line 396.

The corrected definitions are the ones the other properties are stated
about. The as-written ones are kept next to them, with a lemma that shows
the difference.

## Model

| member | source | states |
|---|---|---|
| Bytes.Find | gitlitelib.py:377-378 | `find` returns -1 exactly when `x` does not occur at or after `from`. Otherwise it returns the first such position. |
| Bytes.FindIs | gitlitelib.py:223-227 | The first occurrence of `x` at or after `from` is the position `find` reports. |
| Bytes.PySlice | gitlitelib.py:214 | Python slicing never fails. With in-range bounds it is the ordinary slice. Bounds that cross give the empty slice. A negative end counts from the end. |
| Bytes.Decimal | gitlitelib.py:253 | `str(len(data)).encode()` is a non-empty run of ASCII digits. It reads back (`DecimalValue`) as the length. It has no leading zero unless the length is 0. |
| ObjectFormat.KindOf | gitlitelib.py:232-244 | The tag dispatch yields kind `k` exactly when the tag is `k`'s literal. Every other tag yields no kind. |
| ObjectFormat.Construct | gitlitelib.py:155-162 | Building an object from a payload keeps the payload: `serialize` gives it back unchanged, and the kind is the one dispatched on. |
| ObjectFormat.Frame | gitlitelib.py:253 | The frame is the tag, one space, the decimal digits of the payload length (which read back as that length), a NUL, then the payload itself. |
| ObjectFormat.ParseSize | gitlitelib.py:228 | The size field is accepted exactly when it is the header's space followed by one or more ASCII digits. |
| ObjectFormat.ParseSizeOfDecimal | gitlitelib.py:228 | The size field the write side produces reads back as the length it wrote. |
| ObjectFormat.SplitFrame | gitlitelib.py:222-230 | An accepted buffer splits into a space-free tag that is its prefix and a payload that is its suffix. Between them lie at least the space and the NUL. |
| ObjectFormat.ParseFrame | gitlitelib.py:222-246 | Reading a buffer succeeds exactly when the header split succeeds and its tag is one of the four; it then yields that kind and the bytes after the NUL, whatever digits the size field used. Split errors pass through. A well-split buffer with an unknown tag is an unknown type. |
| ObjectFormat.ParseFrameAsWritten | gitlitelib.py:223-230 | The read side as written agrees with the corrected one whenever a NUL follows the first space. A buffer without a space is rejected. |
| ObjectFormat.SplitFrameOfParts | gitlitelib.py:223-230 | For a space-free tag, the read side's `find`s land on the header's space and NUL. The split yields the tag and payload exactly when the decimal field equals the payload length. Otherwise it reports a length mismatch. |
| ObjectFormat.FrameRoundTrip | gitlitelib.py:249-253 | Splitting the buffer `object_write` builds gives back exactly the tag and the serialised data. |
| ObjectFormat.ParseFrameRoundTrip | gitlitelib.py:222-246 | For each of the four kinds, reading the framed buffer gives back the kind and the data. |
| ObjectFormat.LengthMismatchRejected | gitlitelib.py:228-230 | A header whose declared size differs from the byte count after the NUL is rejected with the bad-length error. |
| ObjectFormat.UnknownTagRejected | gitlitelib.py:241-244 | A well-framed buffer is accepted exactly when its tag is known. Otherwise it is an unknown type. |
| ObjectFormat.ParseFrameOnlyAcceptsFrames | gitlitelib.py:222-246 | Everything the corrected read side accepts has the form: known tag, space, a decimal equal to the payload length, NUL, payload. |
| ObjectFormat.AsWrittenAcceptsMissingNul | gitlitelib.py:227-230 | As written, the NUL-free buffer `blob 7X` is accepted as a blob whose content is the whole buffer. The corrected read reports the missing NUL. |
| ObjectStore.PathOf | gitlitelib.py:259 | `objects/sha[0:2]/sha[2:]`: directory and file name together spell the digest. The directory has two characters. |
| ObjectStore.PathAsRead | gitlitelib.py:214 | `sha[2:1]` has crossing bounds, so the read path's file name is always empty. The directory is the one `object_write` uses. |
| ObjectStore.DigestPath | gitlitelib.py:255-259 | A 40-digit hex digest splits into a 2-character directory and a 38-character file name. |
| ObjectStore.ObjectWrite | gitlitelib.py:249-265 | The returned digest is SHA-1 of the framed serialisation. A store is returned exactly when a repository was given. The store gains the compressed frame at the digest's path only if that path was free, and nothing else changes. |
| ObjectStore.ObjectHash | gitlitelib.py:188-200 | Hashing succeeds exactly for the four known types, and fails with an unknown type otherwise. The digest is SHA-1 of `fmt SP len NUL data`. A store comes back exactly when one was given, and it is the given store with the compressed frame added at the digest's path if that path was free, nothing else changed. |
| ObjectStore.ReadAt | gitlitelib.py:216-246 | Not-found exactly when no file is at the path; an undecompressable file is a corrupt stream; otherwise, with the corrected header handling, the read fails as the header parse fails, or yields an object of the parsed kind whose serialisation is the payload. |
| ObjectStore.ReadObject | gitlitelib.py:213-217 | Reading reports not-found exactly when no file exists at the digest's path. |
| ObjectStore.ReadObjectAsWritten | gitlitelib.py:213-217 | As written, reading reports not-found exactly when no file exists at the `sha[2:1]` path. |
| ObjectStore.WriteIsIdempotent | gitlitelib.py:261-265 | Writing the same object again returns the same digest and leaves the store unchanged. |
| ObjectStore.WritePreservesWellKeyed | gitlitelib.py:259 | After a write, every stored file still sits under a 2-character directory with a 38-character name. |
| ObjectStore.WritePreservesConsistency | gitlitelib.py:255-264 | If zlib is lossless, every stored file still decompresses to a buffer whose digest names its path. |
| ObjectStore.ReadAfterWrite | gitlitelib.py:213-265 | If zlib is lossless, an object written to a free path reads back as the same object. |
| ObjectStore.ReadAsWrittenNeverFinds | gitlitelib.py:214-217 | As written, `object_read` returns not-found for every digest in every store `object_write` builds. |
| ObjectStore.WrittenObjectUnreadableAsWritten | gitlitelib.py:213-265 | An object just written reads back through the corrected path and is not found through the as-written one. |
| Kvlm.Insert | gitlitelib.py:398-405 | Merging a line keeps keys unique. Only that key's values change, by gaining the value at the end. A new key goes last and the order of existing keys is kept. |
| Kvlm.InsertAllKeys | gitlitelib.py:398-407 | Merging lines one after another gives the keys in order of first occurrence. |
| Kvlm.InsertAllLookup | gitlitelib.py:398-407 | Merging lines one after another gives each key the values of its lines in encounter order. |
| Kvlm.ScanValueEndAsWritten | gitlitelib.py:390-393 | The as-written scan, followed until it would wrap round to the start of the buffer, in both directions: it stops at a newline at or after `from` exactly where the corrected scan ends the value; a newline in the last byte reached through continuation lines gives no result; where the scan runs out of newlines, the as-written one stops at position -1 if the buffer does not start with a space. |
| Kvlm.FinalNewlineIsPastEnd | gitlitelib.py:390-393 | The scan indexes past the end of the buffer exactly when every newline from `from` on is a continuation and the buffer ends with a newline at or after `from`. |
| Kvlm.ScanValueEnd | gitlitelib.py:390-393 | The value ends at the first newline not followed by a space, and every newline before it is followed by a space. The scan fails exactly when no newline is followed by a non-space. |
| Kvlm.NextLineAccepts | gitlitelib.py:376-394 | A line with a space before its first newline and a value that ends at a newline followed by a non-space is read as a header line; the block-terminator assertion fails exactly when the line is not blank and has no space before its first newline. |
| Kvlm.NextLine | gitlitelib.py:376-396 | A newline at `start` ends the block, and the rest is the message. A header line ends strictly after `start`, so every step progresses. A scan failure means the value never terminates. |
| Kvlm.NextLineCuts | gitlitelib.py:377-394 | A header line is cut at the first space after `start`, with no space or newline before it, and at the first newline after it that is not followed by a space; every newline in between is followed by a space. |
| Kvlm.NextLineShape | gitlitelib.py:377-396 | A header line's key runs from `start` to the first space and holds no space or newline. Its value runs to the first newline not followed by a space. Folding the unfolded value gives back its raw bytes. |
| Kvlm.Parse | gitlitelib.py:372-384 | Parsing with the default arguments (an empty dict) yields a well-formed dict; a block that opens with the blank line has no headers and the rest of the buffer as its message. |
| Kvlm.KvlmParse | gitlitelib.py:372-407 | Parsing keeps the dict well formed (unique keys, lists of at least two). The keys already in the dict stay first, in order. |
| Kvlm.ParseMergesLines | gitlitelib.py:372-407 | Parsing from `start` into `dct` equals reading the header lines up to the blank line and merging them into `dct`. Both fail the same way. |
| Kvlm.ParseSpec | gitlitelib.py:372-407 | `kvlm_parse(raw)` succeeds exactly when the line walk `HeaderLines` succeeds, that is, when every header line is terminated and a blank line ends the block. Its keys are in order of first occurrence, each with the values of its lines in encounter order, and the message is the bytes after the blank line. |
| Kvlm.RepeatedKeyLines | gitlitelib.py:376-394 | The block `a b`, `a c`, blank line, `m` is read as two header lines with key `a` and values `b` and `c`, then the message `m`. |
| Kvlm.InsertTwice | gitlitelib.py:398-405 | The first value under a key is stored alone; a second value under the same key turns the entry into the two-element list of both, in order. |
| Kvlm.EmptyBlockRejected | gitlitelib.py:381-382 | An empty buffer fails the block-terminator assertion. |
| Kvlm.UnfoldFold | gitlitelib.py:396 | The intended unfolding recovers any value from its folded form. |
| Kvlm.FoldUnfold | gitlitelib.py:396 | Unfolding loses nothing: folding the unfolded bytes of a folded value gives the bytes back. |
| Kvlm.NewlinesToN | gitlitelib.py:396 | As written, the value keeps its length and every newline in it becomes the letter `n`, every other byte unchanged. |
| Kvlm.DecodingsAgreeOnOneLine | gitlitelib.py:396 | On a value with no newline, the as-written replacement and the intended unfolding both leave the value unchanged. |
| Kvlm.FoldAtEndRestarts | gitlitelib.py:390-407 | On `a b`, newline, ` c` the as-written scan stops at -1, so the next line would be read from position 0 again; the model reports the unterminated fold instead. |
| Kvlm.AsWrittenLosesFolds | gitlitelib.py:396 | As written, the folded value `a`, newline, ` b` and the one-line value `an b` decode to the same bytes. The intended unfolding keeps them apart. |

## Left out

- The command-line front end (`cmd_*`, argument parsing, `print`) and the write of object content to standard output in `cat_file`. These are I/O.
- Repository discovery and layout (`repo_*`, `GitRepository`, configuration files, directory creation). The store is a map from path to bytes, and `mkdir` is not modelled.
- The internals of SHA-1, of its hex rendering, and of zlib. They are opaque functions in `Backend`. Lossless zlib is an explicit hypothesis where a lemma needs it.
- The `GitCommit`, `GitTree` and `GitTag` classes. Only the dispatch on their tags is modelled. The file defines none of them, and the object-read dispatch also misspells the first as `GitCommt`, so every non-blob branch of both dispatches (object_read and object_hash) would raise `NameError`. The model treats every known kind like `GitBlob`, whose payload is kept verbatim.
- `object_find`, which is the identity on its name argument. The digest is passed directly.
- Reading the input file in `object_hash`. Its content is the `data` parameter.
- A missing file whose directory also does not exist: `repo_file` then yields `None` and `os.path.isfile(None)` raises. Both missing-file cases are modelled as `NotFound`.
- ObjectFormat.ParseSize: accepts exactly one space followed by ASCII digits, because that is all `object_write` produces. Python's `int` also accepts a sign, `_` separators and surrounding whitespace. Those headers are rejected here rather than read. In the other direction, Python 3.10.7 and later refuse a decimal string longer than `sys.int_max_str_digits` (4300 by default, leading zeros included) with a ValueError, so a field such as a space, 5000 zeros and a 1 fails in the source but is read here as 1. The model has no digit limit, because the limit is an interpreter setting and not part of the format.
- ObjectFormat.ParseFrameAsWritten: a buffer with no space at all is reported as a missing space. As written, the code goes on with `x = -1`, and the size field is then always empty, so `int` raises. Either way the buffer is rejected, but the error kind differs.
- Kvlm.ScanValueEnd: when `find` returns -1 inside the continuation scan, the source goes on to inspect `raw[0]` and then either restarts the parse at position 0 or keeps scanning from the start. The model reports `FoldWithoutNewline` there; the as-written behaviour is the finding for lines 390-393 below.
- Kvlm.ScanValueEndAsWritten: when `find` gives -1 and `raw[0]` is a space, the loop at lines 391-393 goes on from the first newline of the buffer and either spins forever or stops at a newline before `from`. The model reports every such case as `None` and does not follow it.
- Kvlm.KvlmParse: `kvlm_parse` recurses once per header line, so a block with more header lines than Python's recursion limit (1000 by default) raises `RecursionError`. The model has no depth bound and parses a block of any length.
- Kvlm.Unfold: the intended unfolding is a reference definition with no contract of its own; what it means is stated by `UnfoldFold`, `FoldUnfold` and `DecodingsAgreeOnOneLine`.
- The parser's `dct[None]` entry is kept as a separate `message` field rather than as a dict entry under the key `None`.

## Findings

| source | as written | input that shows it | evidently intended | confidence | as-written member | corrected member |
|---|---|---|---|---|---|---|
| gitlitelib.py:214 | the read path is `sha[0:2]/sha[2:1]`, whose file part is always empty | any digest of an object just written by `object_write` | `sha[2:]`, the path `object_write` uses at line 259 | not executed | ObjectStore.ReadAsWrittenNeverFinds | ObjectStore.ReadAfterWrite |
| gitlitelib.py:227-230 | when no NUL follows the space, `find` gives -1, so `raw[x:-1]` is taken as the size, the size is compared with `len(raw)`, and the whole buffer becomes the payload | `blob 7X` (7 bytes, no NUL) is accepted as a blob | reject a header with no NUL terminator | not executed | ObjectFormat.AsWrittenAcceptsMissingNul | ObjectFormat.ParseFrameOnlyAcceptsFrames |
| gitlitelib.py:390-393 | when `find` finds no newline after a continuation line, `end` becomes -1, the test reads `raw[0]`, and the recursion at line 407 restarts from `end + 1 == 0` | the block `a b`, newline, ` c`: the parse never advances and ends in `RecursionError` | reject a value whose continuation line has no terminating newline | not executed | Kvlm.FoldAtEndRestarts | Kvlm.NextLineAccepts |
| gitlitelib.py:396 | `.replace(b'\n', b'n')` turns every newline of a value into the letter `n` | the folded value `a`, newline, ` b` and the value `an b` decode alike | `.replace(b'\n ', b'\n')`, dropping the continuation space | not executed | Kvlm.AsWrittenLosesFolds | Kvlm.FoldUnfold |

=== FILE: bytes.dfy ===
/** Byte strings as Python's `bytes` sees them, and the few `bytes`
    operations the object store relies on: `find`, slicing with Python's
    index rules, and ASCII decimal numerals. */
module Bytes {

  /** One octet. */
  type byte = b: int | 0 <= b < 256

  type Bytes = seq<byte>

  const SP: byte := 0x20
  const NL: byte := 0x0A
  const NUL: byte := 0x00

  /** Python's `s.find(x, from)`: the first index at or after `from` that
      holds `x`, or -1 when there is none. */
  function Find<T(==)>(s: seq<T>, x: T, from: nat): (r: int)
    ensures -1 <= r < |s|
    ensures r == -1 <==> forall i :: from <= i < |s| ==> s[i] != x
    ensures 0 <= r ==> from <= r && s[r] == x
    ensures 0 <= r ==> forall i :: from <= i < r ==> s[i] != x
    decreases |s| - from
  {
    if from >= |s| then -1
    else if s[from] == x then from
    else Find(s, x, from + 1)
  }

  /** The first `x` at or after `from` is the one Find reports. */
  lemma FindIs<T>(s: seq<T>, x: T, from: nat, j: nat)
    requires from <= j < |s| && s[j] == x
    requires forall i :: from <= i < j ==> s[i] != x
    ensures Find(s, x, from) == j
  {
    assert s[j] == x;
  }

  /** Find over a sequence whose head is not `x` is Find over its tail,
      shifted by one. */
  lemma FindShift<T>(s: seq<T>, x: T)
    requires |s| > 0 && s[0] != x
    ensures Find(s, x, 0) == if Find(s[1..], x, 0) < 0 then -1 else Find(s[1..], x, 0) + 1
  {
    var j := Find(s[1..], x, 0);
    if j < 0 {
      assert forall i :: 1 <= i < |s| ==> s[i] == s[1..][i - 1];
    } else {
      assert s[j + 1] == x;
      assert forall i :: 1 <= i < j + 1 ==> s[i] == s[1..][i - 1];
    }
  }

  /** Appending something other than `x` does not move the first `x`. */
  lemma FindAppend<T>(s: seq<T>, y: T, x: T)
    requires x != y
    ensures Find(s + [y], x, 0) == Find(s, x, 0)
  {
    var t := s + [y];
    var i := Find(s, x, 0);
    if i < 0 {
      assert forall j :: 0 <= j < |t| ==> t[j] != x by {
        forall j | 0 <= j < |t| ensures t[j] != x {
          if j < |s| { assert t[j] == s[j]; }
        }
      }
    } else {
      assert t[i] == x;
      assert forall j :: 0 <= j < i ==> t[j] != x by {
        forall j | 0 <= j < i ensures t[j] != x { assert t[j] == s[j]; }
      }
    }
  }

  /** Concatenation is associative. */
  lemma AppendAssoc<T>(a: seq<T>, b: seq<T>, c: seq<T>)
    ensures a + b + c == a + (b + c)
  {
  }

  /** Python's treatment of one slice bound: a negative bound counts from
      the end, and the result is clamped to `[0, n]`. */
  function SliceBound(i: int, n: nat): (b: nat)
    ensures b <= n
    ensures 0 <= i <= n ==> b == i
    ensures -(n as int) <= i < 0 ==> b == i + n
  {
    if i < 0 then (if i + n < 0 then 0 else i + n)
    else if i > n then n
    else i
  }

  /** Python's `s[i:j]`: never fails, and is empty when the bounds cross. */
  function PySlice<T>(s: seq<T>, i: int, j: int): (r: seq<T>)
    ensures 0 <= i <= j <= |s| ==> r == s[i..j]
    ensures 0 <= j <= i ==> r == []
    ensures 0 <= i <= |s| + j && j < 0 ==> r == s[i..|s| + j]
    ensures |r| <= |s|
  {
    var lo := SliceBound(i, |s|);
    var hi := SliceBound(j, |s|);
    if lo < hi then s[lo..hi] else []
  }

  predicate IsDigit(b: byte) {
    0x30 <= b <= 0x39
  }

  /** A non-empty run of ASCII digits. */
  predicate IsDecimal(s: Bytes) {
    |s| > 0 && forall i :: 0 <= i < |s| ==> IsDigit(s[i])
  }

  /** The number a run of ASCII digits spells (leading zeros allowed, as
      Python's `int` allows them). */
  function DecimalValue(s: Bytes): nat
    requires forall i :: 0 <= i < |s| ==> IsDigit(s[i])
    decreases |s|
  {
    if |s| == 0 then 0
    else
      assert IsDigit(s[|s| - 1]);
      10 * DecimalValue(s[..|s| - 1]) + (s[|s| - 1] as int - 0x30)
  }

  /** `str(n).encode()`: the canonical ASCII decimal spelling of `n`. */
  function Decimal(n: nat): (r: Bytes)
    ensures IsDecimal(r)
    ensures DecimalValue(r) == n
    ensures r[0] == 0x30 ==> n == 0
    decreases n
  {
    if n < 10 then [0x30 + n]
    else
      var r := Decimal(n / 10) + [0x30 + n % 10];
      assert r[..|r| - 1] == Decimal(n / 10);
      r
  }
}

=== FILE: kvlm.dfy ===
/** kvlm_parse of gitlitelib.py: the "key-value list with message" header
    block of commit and tag objects. Each header line is `key SP value NL`,
    a value continues on following lines that start with a space, repeated
    keys collect their values in order, and a blank line ends the block;
    the rest of the buffer is the message (the entry under `None`). */
module Kvlm {
  import opened Results
  import opened Bytes

  /** A header's value: the first occurrence's bytes, or the list that a
      repeated key turns it into (at least two values). */
  datatype Val = Single(value: Bytes) | Multi(values: seq<Bytes>)

  datatype Header = Header(key: Bytes, val: Val)

  /** The dict kvlm_parse returns: the byte-string keys in insertion order,
      and the message stored under `None`. */
  datatype Kvlm = Kvlm(headers: seq<Header>, message: Bytes)

  /** How line 396 turns the raw value bytes into the stored value. */
  datatype ValueDecoding =
    | AsWritten  // `.replace(b'\n', b'n')`: every newline becomes the letter n
    | Unfolded   // `.replace(b'\n ', b'\n')`: each continuation marker becomes a newline

  /** A header line as cut from the block, before its value is decoded and
      merged into the dict: `folded` holds the value bytes as they appear,
      continuation lines included. */
  datatype Line =
    | HeaderLine(key: Bytes, folded: Bytes, keyEnd: nat, valueEnd: nat)
    | Trailer(message: Bytes)

  /** The header lines of a block in encounter order, and its message. */
  datatype Lines = Lines(pairs: seq<(Bytes, Bytes)>, message: Bytes)

  // ---------------------------------------------------------------------
  // The dict

  function Values(v: Val): seq<Bytes> {
    match v
    case Single(x) => [x]
    case Multi(xs) => xs
  }

  function Keys(h: seq<Header>): (ks: seq<Bytes>)
    ensures |ks| == |h|
    ensures forall i :: 0 <= i < |h| ==> ks[i] == h[i].key
  {
    seq(|h|, i requires 0 <= i < |h| => h[i].key)
  }

  predicate Distinct<T(==)>(s: seq<T>) {
    forall i, j :: 0 <= i < j < |s| ==> s[i] != s[j]
  }

  /** Keys are unique, and only a repeated key holds a list. */
  predicate WellFormed(h: seq<Header>) {
    && Distinct(Keys(h))
    && forall i :: 0 <= i < |h| ==> (h[i].val.Multi? ==> |h[i].val.values| >= 2)
  }

  /** All values stored under `k`, in the order they were added. */
  function Lookup(h: seq<Header>, k: Bytes): seq<Bytes>
    decreases |h|
  {
    if |h| == 0 then []
    else if h[0].key == k then Values(h[0].val)
    else Lookup(h[1..], k)
  }

  /** Lookup reads the entry at the key's first (and, when keys are
      unique, only) position. */
  lemma {:induction false} LookupAt(h: seq<Header>, k: Bytes)
    ensures Lookup(h, k) == if Find(Keys(h), k, 0) < 0 then [] else Values(h[Find(Keys(h), k, 0)].val)
    decreases |h|
  {
    if |h| > 0 && h[0].key != k {
      LookupAt(h[1..], k);
      assert Keys(h)[1..] == Keys(h[1..]);
      FindShift(Keys(h), k);
    }
  }

  function Append(v: Val, x: Bytes): (r: Val)
    ensures Values(r) == Values(v) + [x]
  {
    match v
    case Single(y) => Multi([y, x])
    case Multi(ys) => Multi(ys + [x])
  }

  /** What adding `value` under `key` to `h` must give: a well-formed dict
      where only `key`'s values change, by gaining `value` at the end, and
      where the key order changes only by a new key going last. */
  ghost predicate Extends(h: seq<Header>, key: Bytes, value: Bytes, r: seq<Header>) {
    && WellFormed(r)
    && Lookup(r, key) == Lookup(h, key) + [value]
    && (forall k :: k != key ==> Lookup(r, k) == Lookup(h, k))
    && Keys(r) == if key in Keys(h) then Keys(h) else Keys(h) + [key]
  }

  /** Lines 399-405: a new key is appended with a single value; the second
      occurrence turns the value into a two-element list and later ones
      append to it. */
  function Insert(h: seq<Header>, key: Bytes, value: Bytes): (r: seq<Header>)
    requires WellFormed(h)
    ensures Extends(h, key, value, r)
  {
    var i := Find(Keys(h), key, 0);
    if i < 0 then
      AddEntry(h, key, value);
      h + [Header(key, Single(value))]
    else
      UpdateEntry(h, i, value);
      h[i := Header(key, Append(h[i].val, value))]
  }

  /** A key not yet in the dict goes last, with a single value. */
  lemma AddEntry(h: seq<Header>, key: Bytes, value: Bytes)
    requires WellFormed(h) && Find(Keys(h), key, 0) < 0
    ensures Extends(h, key, value, h + [Header(key, Single(value))])
  {
    var r := h + [Header(key, Single(value))];
    AddEntryKeys(h, key, value);
    LookupAt(r, key);
    LookupAt(h, key);
    forall k | k != key ensures Lookup(r, k) == Lookup(h, k) {
      AddEntryOthers(h, key, value, k);
    }
  }

  /** A new key goes last, where Find sees it, and the dict stays well formed. */
  lemma AddEntryKeys(h: seq<Header>, key: Bytes, value: Bytes)
    requires WellFormed(h) && Find(Keys(h), key, 0) < 0
    ensures Keys(h + [Header(key, Single(value))]) == Keys(h) + [key]
    ensures Find(Keys(h + [Header(key, Single(value))]), key, 0) == |h|
    ensures WellFormed(h + [Header(key, Single(value))])
  {
    var r := h + [Header(key, Single(value))];
    assert Keys(r) == Keys(h) + [key];
    assert forall j :: 0 <= j < |h| ==> Keys(r)[j] != key;
    FindIs(Keys(r), key, 0, |h|);
  }

  /** Adding a new key leaves every other key's values alone. */
  lemma AddEntryOthers(h: seq<Header>, key: Bytes, value: Bytes, k: Bytes)
    requires WellFormed(h) && Find(Keys(h), key, 0) < 0 && k != key
    ensures Lookup(h + [Header(key, Single(value))], k) == Lookup(h, k)
  {
    var r := h + [Header(key, Single(value))];
    assert Keys(r) == Keys(h) + [key];
    LookupAt(r, k);
    LookupAt(h, k);
    FindAppend(Keys(h), key, k);
    var j := Find(Keys(h), k, 0);
    if j >= 0 { assert r[j] == h[j]; }
  }

  /** A key already at position `i` gains `value` at the end of its values. */
  lemma UpdateEntry(h: seq<Header>, i: nat, value: Bytes)
    requires WellFormed(h) && i < |h| && Find(Keys(h), h[i].key, 0) == i
    ensures Extends(h, h[i].key, value, h[i := Header(h[i].key, Append(h[i].val, value))])
  {
    var key := h[i].key;
    var r := h[i := Header(key, Append(h[i].val, value))];
    assert Keys(r) == Keys(h);
    LookupAt(r, key);
    LookupAt(h, key);
    forall k | k != key ensures Lookup(r, k) == Lookup(h, k) {
      LookupAt(r, k);
      LookupAt(h, k);
      var j := Find(Keys(h), k, 0);
      if j >= 0 { assert j != i; assert r[j] == h[j]; }
    }
  }

  /** Merging a sequence of header lines into the dict, first line first. */
  function InsertAll(h: seq<Header>, ps: seq<(Bytes, Bytes)>): (r: seq<Header>)
    requires WellFormed(h)
    ensures WellFormed(r)
    decreases |ps|
  {
    if |ps| == 0 then h else InsertAll(Insert(h, ps[0].0, ps[0].1), ps[1..])
  }

  /** The values of all lines with key `k`, in encounter order. */
  function ValuesFor(ps: seq<(Bytes, Bytes)>, k: Bytes): seq<Bytes>
    decreases |ps|
  {
    if |ps| == 0 then []
    else (if ps[0].0 == k then [ps[0].1] else []) + ValuesFor(ps[1..], k)
  }

  /** `ks` followed by the keys of `ps` not seen before, in order of their
      first occurrence. */
  function AddKeys(ks: seq<Bytes>, ps: seq<(Bytes, Bytes)>): seq<Bytes>
    decreases |ps|
  {
    if |ps| == 0 then ks
    else AddKeys(if ps[0].0 in ks then ks else ks + [ps[0].0], ps[1..])
  }

  /** Merging lines keeps the keys in order of first occurrence. */
  lemma {:induction false} InsertAllKeys(h: seq<Header>, ps: seq<(Bytes, Bytes)>)
    requires WellFormed(h)
    ensures Keys(InsertAll(h, ps)) == AddKeys(Keys(h), ps)
    decreases |ps|
  {
    if |ps| > 0 {
      InsertAllKeys(Insert(h, ps[0].0, ps[0].1), ps[1..]);
    }
  }

  /** Insert's effect on the values under one key. */
  lemma InsertLookup(h: seq<Header>, key: Bytes, value: Bytes, k: Bytes)
    requires WellFormed(h)
    ensures Lookup(Insert(h, key, value), k) == Lookup(h, k) + (if k == key then [value] else [])
  {
  }

  /** Merging lines keeps each key's values in encounter order. */
  lemma {:induction false} InsertAllLookup(h: seq<Header>, ps: seq<(Bytes, Bytes)>, k: Bytes)
    requires WellFormed(h)
    ensures Lookup(InsertAll(h, ps), k) == Lookup(h, k) + ValuesFor(ps, k)
    decreases |ps|
  {
    if |ps| == 0 {
      assert InsertAll(h, ps) == h;
      assert ValuesFor(ps, k) == [];
    } else {
      var h' := Insert(h, ps[0].0, ps[0].1);
      var mine := if ps[0].0 == k then [ps[0].1] else [];
      assert InsertAll(h, ps) == InsertAll(h', ps[1..]);
      assert ValuesFor(ps, k) == mine + ValuesFor(ps[1..], k);
      var tail := Lookup(InsertAll(h', ps[1..]), k);
      assert tail == Lookup(h', k) + ValuesFor(ps[1..], k) by {
        InsertAllLookup(h', ps[1..], k);
      }
      InsertLookup(h, ps[0].0, ps[0].1, k);
      AppendAssoc(Lookup(h, k), mine, ValuesFor(ps[1..], k));
    }
  }

  // ---------------------------------------------------------------------
  // Value bytes

  /** Every newline is followed, inside `s`, by a space: the shape of a
      value that spans continuation lines. */
  predicate FoldedForm(s: Bytes) {
    forall i :: 0 <= i < |s| ==> SpaceAfterNewline(s, i)
  }

  /** A newline at `k` is not the last byte and is followed by a space. */
  predicate SpaceAfterNewline(s: Bytes, k: int)
    requires 0 <= k < |s|
  {
    s[k] == NL ==> k + 1 < |s| && s[k + 1] == SP
  }

  /** Git's intended unfolding, `replace(b'\n ', b'\n')` (left to right,
      non-overlapping, as Python's replace). */
  function Unfold(s: Bytes): Bytes
    decreases |s|
  {
    if |s| == 0 then []
    else if |s| >= 2 && s[0] == NL && s[1] == SP then [NL] + Unfold(s[2..])
    else [s[0]] + Unfold(s[1..])
  }

  /** The folding a serialiser applies: each newline of a value is written
      as a newline followed by a space. */
  function Fold(v: Bytes): Bytes
    decreases |v|
  {
    if |v| == 0 then []
    else if v[0] == NL then [NL, SP] + Fold(v[1..])
    else [v[0]] + Fold(v[1..])
  }

  /** `replace(b'\n', b'n')`: what line 396 actually does. */
  function NewlinesToN(s: Bytes): (r: Bytes)
    ensures |r| == |s|
    ensures forall i :: 0 <= i < |s| ==> r[i] == if s[i] == NL then 0x6E else s[i]
    decreases |s|
  {
    if |s| == 0 then []
    else [if s[0] == NL then 0x6E else s[0]] + NewlinesToN(s[1..])
  }

  function DecodeValue(mode: ValueDecoding, raw: Bytes): Bytes {
    match mode
    case AsWritten => NewlinesToN(raw)
    case Unfolded => Unfold(raw)
  }

  /** A value on one line is stored verbatim under either decoding: the
      two readings of line 396 differ only on folded values. */
  lemma {:induction false} DecodingsAgreeOnOneLine(v: Bytes)
    requires NL !in v
    ensures Unfold(v) == v && NewlinesToN(v) == v
    decreases |v|
  {
    if |v| > 0 {
      assert NL !in v[1..] by { assert forall i :: 0 <= i < |v[1..]| ==> v[1..][i] == v[i + 1]; }
      DecodingsAgreeOnOneLine(v[1..]);
      assert v == [v[0]] + v[1..];
    }
  }

  /** Unfolding recovers any value a serialiser folded. */
  lemma {:induction false} UnfoldFold(v: Bytes)
    ensures Unfold(Fold(v)) == v
    decreases |v|
  {
    if |v| > 0 {
      UnfoldFold(v[1..]);
      if v[0] == NL {
        assert Fold(v) == [NL, SP] + Fold(v[1..]);
        assert (Fold(v))[2..] == Fold(v[1..]);
      } else {
        var f := Fold(v);
        assert f == [v[0]] + Fold(v[1..]);
        assert f[1..] == Fold(v[1..]);
        if |f| >= 2 && f[0] == NL { assert false; }
      }
    }
  }

  /** Unfolding loses nothing: folding the unfolded bytes of a value as it
      appears in a header block gives those bytes back. */
  lemma {:induction false} FoldUnfold(s: Bytes)
    requires FoldedForm(s)
    ensures Fold(Unfold(s)) == s
    decreases |s|
  {
    if |s| > 0 {
      if |s| >= 2 && s[0] == NL && s[1] == SP {
        assert FoldedForm(s[2..]) by {
          forall i | 0 <= i < |s[2..]|
            ensures SpaceAfterNewline(s[2..], i)
          {
            assert SpaceAfterNewline(s, i + 2);
          }
        }
        FoldUnfold(s[2..]);
        assert Unfold(s) == [NL] + Unfold(s[2..]);
        assert s == [NL, SP] + s[2..];
      } else {
        assert SpaceAfterNewline(s, 0);
        assert FoldedForm(s[1..]) by {
          forall i | 0 <= i < |s[1..]|
            ensures SpaceAfterNewline(s[1..], i)
          {
            assert SpaceAfterNewline(s, i + 1);
          }
        }
        FoldUnfold(s[1..]);
        assert Unfold(s) == [s[0]] + Unfold(s[1..]);
        assert s == [s[0]] + s[1..];
      }
    }
  }

  /** As written, line 396 merges distinct header values: `a` folded onto a
      continuation line ` b` and the one-line value `an b` both come out
      as `an b`, so the continuation cannot be recovered. Unfolding keeps
      them apart. */
  lemma AsWrittenLosesFolds()
    ensures DecodeValue(AsWritten, [0x61, NL, SP, 0x62]) == DecodeValue(AsWritten, [0x61, 0x6E, SP, 0x62])
    ensures DecodeValue(Unfolded, [0x61, NL, SP, 0x62]) == [0x61, NL, 0x62]
    ensures DecodeValue(Unfolded, [0x61, NL, SP, 0x62]) != DecodeValue(Unfolded, [0x61, 0x6E, SP, 0x62])
  {
    var folded: Bytes := [0x61, NL, SP, 0x62];
    var flat: Bytes := [0x61, 0x6E, SP, 0x62];
    assert folded[1..] == [NL, SP, 0x62];
    assert folded[1..][2..] == [0x62];
    var b: Bytes := [0x62];
    assert b[1..] == [];
    assert Unfold(b) == [0x62];
    assert folded[1..][2..] == b;
    assert Unfold(folded[1..]) == [NL] + Unfold(b);
    assert Unfold(folded) == [0x61] + Unfold(folded[1..]);
    assert Unfold(flat) == [0x61] + Unfold(flat[1..]);
    assert Unfold(flat[1..]) == [0x6E] + Unfold(flat[2..]);
  }

  // ---------------------------------------------------------------------
  // One line at a time

  /** No newline at or after `from` is followed by a byte other than a
      space: the value never ends. */
  predicate NoTerminator(raw: Bytes, from: nat) {
    forall k :: from <= k < |raw| - 1 ==> SpaceAfterNewline(raw, k)
  }

  /** Lines 390-393: from `from`, jump from newline to newline while the
      byte after the newline is a space. The result is the first newline
      at or after `from` that is followed by something other than a space.
      A newline in the last byte is an index error, and running out of
      newlines while skipping continuation lines is an error too. */
  function ScanValueEnd(raw: Bytes, from: nat): (r: Result<nat>)
    ensures r.Ok? ==> from <= r.value && r.value + 1 < |raw|
    ensures r.Ok? ==> raw[r.value] == NL && raw[r.value + 1] != SP
    ensures r.Ok? ==> forall k :: from <= k < r.value ==> SpaceAfterNewline(raw, k)
    ensures r.Err? <==> NoTerminator(raw, from)
    ensures r.Err? ==> r.error == ValuePastEnd || r.error == FoldWithoutNewline
    decreases |raw| - from
  {
    var end := Find(raw, NL, from);
    if end < 0 then Err(FoldWithoutNewline)
    else if end + 1 >= |raw| then Err(ValuePastEnd)
    else if raw[end + 1] != SP then
      assert !SpaceAfterNewline(raw, end);
      Ok(end)
    else ScanValueEnd(raw, end + 1)
  }

  /** Lines 390-393 as written, up to the point where the scan wraps
      round. When `find` gives -1 the loop test reads `raw[end + 1] ==
      raw[0]`; if that is not a space the loop stops with `end == -1`, and
      line 407 recurses from `end + 1 == 0`. `None` covers the rest: a
      newline in the last byte (an index error), and, when `raw[0]` is a
      space, the scan carrying on from the start of the buffer, which the
      model does not follow. */
  function ScanValueEndAsWritten(raw: Bytes, from: nat): (r: Option<int>)
    ensures r.Some? && r.value >= 0 ==> ScanValueEnd(raw, from) == Ok(r.value)
    ensures ScanValueEnd(raw, from) == Err(FoldWithoutNewline) ==>
              r == if |raw| > 0 && raw[0] != SP then Some(-1) else None
    ensures ScanValueEnd(raw, from).Ok? ==> r == Some(ScanValueEnd(raw, from).value)
    ensures ScanValueEnd(raw, from) == Err(ValuePastEnd) ==> r == None
    decreases |raw| - from
  {
    var end := Find(raw, NL, from);
    if end < 0 then (if |raw| > 0 && raw[0] != SP then Some(-1) else None)
    else if end + 1 >= |raw| then None
    else if raw[end + 1] != SP then Some(end)
    else ScanValueEndAsWritten(raw, end + 1)
  }

  /** The scan's index error is a newline in the last byte: it happens
      exactly when every newline from `from` on is a continuation and the
      buffer ends with a newline at or after `from`. */
  lemma {:induction false} FinalNewlineIsPastEnd(raw: Bytes, from: nat)
    ensures ScanValueEnd(raw, from) == Err(ValuePastEnd) <==>
              NoTerminator(raw, from) && from < |raw| && raw[|raw| - 1] == NL
    decreases |raw| - from
  {
    var end := Find(raw, NL, from);
    if end >= 0 && end + 1 < |raw| && raw[end + 1] == SP {
      FinalNewlineIsPastEnd(raw, end + 1);
    }
  }

  /** A key as the parser cuts it: no space and no newline. */
  predicate CleanKey(key: Bytes) {
    SP !in key && NL !in key
  }

  /** What a header line starting at `start` must look like. */
  predicate ValidHeaderLine(raw: Bytes, start: nat, line: Line)
    requires line.HeaderLine?
  {
    && start <= line.keyEnd < line.valueEnd
    && line.valueEnd + 1 < |raw|
    // the key runs from `start` to the first space and holds no space or newline
    && raw[line.keyEnd] == SP
    && line.key == raw[start..line.keyEnd]
    && CleanKey(line.key)
    // the value ends at the first newline not followed by a space
    && raw[line.valueEnd] == NL && raw[line.valueEnd + 1] != SP
    && line.folded == raw[line.keyEnd + 1..line.valueEnd]
    && FoldedForm(line.folded)
  }

  /** The pieces NextLine cuts out of a header line have the shape
      ValidHeaderLine describes. */
  lemma HeaderLineShape(raw: Bytes, start: nat, spc: nat, end: nat)
    requires start <= spc < end && end + 1 < |raw|
    requires raw[spc] == SP && raw[end] == NL && raw[end + 1] != SP
    requires forall i :: start <= i < spc ==> raw[i] != SP && raw[i] != NL
    requires forall k :: spc < k < end ==> SpaceAfterNewline(raw, k)
    ensures ValidHeaderLine(raw, start, HeaderLine(raw[start..spc], raw[spc + 1..end], spc, end))
  {
    var key := raw[start..spc];
    assert forall i :: 0 <= i < |key| ==> key[i] == raw[start + i];
    var segment := raw[spc + 1..end];
    assert FoldedForm(segment) by {
      forall i | 0 <= i < |segment|
        ensures SpaceAfterNewline(segment, i)
      {
        assert SpaceAfterNewline(raw, spc + 1 + i);
      }
    }
  }

  /** One step of kvlm_parse (lines 376-396). A newline exactly at `start`
      ends the block and the rest is the message. A line without a space
      before its newline otherwise fails the source's assert. Else the key
      runs to the first space and the value to the end of its last
      continuation line; the next line starts right after that, so every
      step makes progress. */
  function NextLine(raw: Bytes, start: nat): (r: Result<Line>)
    ensures (r.Ok? && r.value.Trailer?) <==> start < |raw| && raw[start] == NL
    ensures r.Ok? && r.value.Trailer? ==> r.value.message == raw[start + 1..]
    ensures r.Ok? && r.value.HeaderLine? ==> start < r.value.valueEnd + 1 < |raw|
    ensures r.Ok? && r.value.HeaderLine? ==> CleanKey(r.value.key)
    ensures r.Err? && r.error != HeaderBlockUnterminated ==> NoTerminator(raw, start + 1)
  {
    var spc := Find(raw, SP, start);
    var nl := Find(raw, NL, start);
    if spc < 0 || nl < spc then
      if nl == start then Ok(Trailer(raw[start + 1..])) else Err(HeaderBlockUnterminated)
    else
      match ScanValueEnd(raw, start + 1)
      case Err(e) => Err(e)
      case Ok(end) =>
        assert end >= nl;
        HeaderLineShape(raw, start, spc, end);
        Ok(HeaderLine(raw[start..spc], raw[spc + 1..end], spc, end))
  }

  /** Where NextLine cuts a header line: the first space after `start`
      and the end of the value's last continuation line. */
  lemma NextLineCuts(raw: Bytes, start: nat) returns (spc: nat, end: nat)
    requires NextLine(raw, start).Ok? && NextLine(raw, start).value.HeaderLine?
    ensures start <= spc < end && end + 1 < |raw|
    ensures raw[spc] == SP && raw[end] == NL && raw[end + 1] != SP
    ensures forall i :: start <= i < spc ==> raw[i] != SP && raw[i] != NL
    ensures forall k :: spc < k < end ==> SpaceAfterNewline(raw, k)
    ensures NextLine(raw, start) == Ok(HeaderLine(raw[start..spc], raw[spc + 1..end], spc, end))
  {
    spc := Find(raw, SP, start);
    end := ScanValueEnd(raw, start + 1).value;
    assert end >= Find(raw, NL, start);
  }

  /** Key and value boundaries of a header line NextLine reads: the key is
      the bytes from `start` to the first space, the value runs from after
      that space to the first newline not followed by a space, and with
      the intended unfolding the value folds back to its raw bytes. */
  lemma NextLineShape(raw: Bytes, start: nat)
    requires NextLine(raw, start).Ok? && NextLine(raw, start).value.HeaderLine?
    ensures ValidHeaderLine(raw, start, NextLine(raw, start).value)
    ensures Fold(DecodeValue(Unfolded, NextLine(raw, start).value.folded)) == NextLine(raw, start).value.folded
  {
    var spc, end := NextLineCuts(raw, start);
    HeaderLineShape(raw, start, spc, end);
    FoldUnfold(raw[spc + 1..end]);
  }

  // ---------------------------------------------------------------------
  // The block

  /** kvlm_parse(raw, start, dct): read lines from `start`, merging each
      header into `dct`, until the blank line; each recursive call starts
      strictly after the line it just read. */
  function KvlmParse(raw: Bytes, start: nat, dct: seq<Header>, mode: ValueDecoding): (r: Result<Kvlm>)
    requires WellFormed(dct)
    ensures r.Ok? ==> WellFormed(r.value.headers)
    ensures r.Ok? ==> |Keys(dct)| <= |Keys(r.value.headers)| && Keys(dct) == Keys(r.value.headers)[..|dct|]
    decreases |raw| - start, 1
  {
    ParseLine(raw, start, dct, mode, NextLine(raw, start))
  }

  function ParseLine(raw: Bytes, start: nat, dct: seq<Header>, mode: ValueDecoding, n: Result<Line>): (r: Result<Kvlm>)
    requires WellFormed(dct)
    requires n.Ok? && n.value.HeaderLine? ==> start < n.value.valueEnd + 1 <= |raw|
    ensures r.Ok? ==> WellFormed(r.value.headers)
    ensures r.Ok? ==> |Keys(dct)| <= |Keys(r.value.headers)| && Keys(dct) == Keys(r.value.headers)[..|dct|]
    decreases |raw| - start, 0
  {
    if n.Err? then Err(n.error)
    else if n.value.Trailer? then Ok(Kvlm(dct, n.value.message))
    else
      var dct' := Insert(dct, n.value.key, DecodeValue(mode, n.value.folded));
      assert Keys(dct) == Keys(dct')[..|dct|];
      KvlmParse(raw, n.value.valueEnd + 1, dct', mode)
  }

  /** kvlm_parse(raw) with the default arguments. */
  function Parse(raw: Bytes, mode: ValueDecoding): (r: Result<Kvlm>)
    ensures r.Ok? ==> WellFormed(r.value.headers)
    ensures |raw| > 0 && raw[0] == NL ==> r == Ok(Kvlm([], raw[1..]))
  {
    BlankFirstLine(raw, mode);
    KvlmParse(raw, 0, [], mode)
  }

  /** The same walk over the block without merging: the header lines in
      encounter order, and the message. */
  function HeaderLines(raw: Bytes, start: nat, mode: ValueDecoding): (r: Result<Lines>)
    ensures r.Ok? ==> forall p :: p in r.value.pairs ==> CleanKey(p.0)
    decreases |raw| - start, 1
  {
    LinesFrom(raw, start, mode, NextLine(raw, start))
  }

  /** HeaderLines once the line at `start` has been read as `n`. */
  function LinesFrom(raw: Bytes, start: nat, mode: ValueDecoding, n: Result<Line>): (r: Result<Lines>)
    requires n.Ok? && n.value.HeaderLine? ==> start < n.value.valueEnd + 1 <= |raw| && CleanKey(n.value.key)
    ensures r.Ok? ==> forall p :: p in r.value.pairs ==> CleanKey(p.0)
    decreases |raw| - start, 0
  {
    if n.Err? then Err(n.error)
    else if n.value.Trailer? then Ok(Lines([], n.value.message))
    else
      var rest := HeaderLines(raw, n.value.valueEnd + 1, mode);
      if rest.Err? then Err(rest.error)
      else
        var pairs := [(n.value.key, DecodeValue(mode, n.value.folded))] + rest.value.pairs;
        Ok(Lines(pairs, rest.value.message))
  }

  /** The dict that results from merging the lines `ls` into `dct`. */
  function MergeLines(dct: seq<Header>, ls: Result<Lines>): Result<Kvlm>
    requires WellFormed(dct)
  {
    match ls
    case Err(e) => Err(e)
    case Ok(lines) => Ok(Kvlm(InsertAll(dct, lines.pairs), lines.message))
  }

  /** One header line of KvlmParse: merge it and go on after it. */
  lemma KvlmParseStep(raw: Bytes, start: nat, dct: seq<Header>, mode: ValueDecoding, line: Line)
    requires WellFormed(dct)
    requires NextLine(raw, start) == Ok(line) && line.HeaderLine?
    ensures KvlmParse(raw, start, dct, mode) == ParseLine(raw, start, dct, mode, Ok(line))
  {
    var n := NextLine(raw, start);
    assert n.Ok? && !n.value.Trailer? && n.value == line;
  }

  /** One header line of HeaderLines: it heads the lines read after it. */
  lemma HeaderLinesStep(raw: Bytes, start: nat, mode: ValueDecoding, line: Line, rest: Result<Lines>)
    requires NextLine(raw, start) == Ok(line) && line.HeaderLine?
    requires rest == HeaderLines(raw, line.valueEnd + 1, mode)
    ensures rest.Err? ==> HeaderLines(raw, start, mode) == Err(rest.error)
    ensures rest.Ok? ==> HeaderLines(raw, start, mode) == Ok(Lines([(line.key, DecodeValue(mode, line.folded))] + rest.value.pairs, rest.value.message))
  {
    var n := NextLine(raw, start);
    assert n.Ok? && !n.value.Trailer? && n.value == line;
  }

  /** A block that ends (or fails) at `start` ends both walks the same way. */
  lemma LastStep(raw: Bytes, start: nat, dct: seq<Header>, mode: ValueDecoding)
    requires WellFormed(dct)
    requires !(NextLine(raw, start).Ok? && NextLine(raw, start).value.HeaderLine?)
    ensures KvlmParse(raw, start, dct, mode) == MergeLines(dct, HeaderLines(raw, start, mode))
  {
    var n := NextLine(raw, start);
    if n.Ok? {
      assert HeaderLines(raw, start, mode) == Ok(Lines([], n.value.message));
      assert InsertAll(dct, []) == dct;
    }
  }

  /** The line at `start` opens the message: parsing stops with the dict
      built so far. */
  lemma TrailerStep(raw: Bytes, start: nat, dct: seq<Header>, mode: ValueDecoding, message: Bytes)
    requires WellFormed(dct)
    requires NextLine(raw, start) == Ok(Trailer(message))
    ensures KvlmParse(raw, start, dct, mode) == Ok(Kvlm(dct, message))
  {
    var n := NextLine(raw, start);
    assert n.Ok? && n.value.Trailer?;
  }

  /** A block that opens with the blank line has no headers: the rest of
      the buffer is the message. */
  lemma BlankFirstLine(raw: Bytes, mode: ValueDecoding)
    ensures |raw| > 0 && raw[0] == NL ==> KvlmParse(raw, 0, [], mode) == Ok(Kvlm([], raw[1..]))
  {
    if |raw| > 0 && raw[0] == NL {
      TrailerStep(raw, 0, [], mode, raw[1..]);
    }
  }

  /** Which lines NextLine accepts. A line with a space before its first
      newline, whose value ends at a newline followed by something other
      than a space, is a header line; the block-terminator assertion fails
      exactly when the line is not blank and has no space before its first
      newline. */
  lemma NextLineAccepts(raw: Bytes, start: nat)
    ensures 0 <= Find(raw, SP, start) < Find(raw, NL, start) && !NoTerminator(raw, start + 1) ==>
              NextLine(raw, start).Ok? && NextLine(raw, start).value.HeaderLine?
    ensures NextLine(raw, start) == Err(HeaderBlockUnterminated) <==>
              !(start < |raw| && raw[start] == NL) &&
              (Find(raw, SP, start) < 0 || Find(raw, NL, start) < Find(raw, SP, start))
  {
  }

  /** kvlm_parse reads the same lines as HeaderLines and merges them into
      the dict it was given, first line first. */
  lemma {:induction false} ParseMergesLines(raw: Bytes, start: nat, dct: seq<Header>, mode: ValueDecoding)
    requires WellFormed(dct)
    ensures KvlmParse(raw, start, dct, mode) == MergeLines(dct, HeaderLines(raw, start, mode))
    decreases |raw| - start
  {
    var n := NextLine(raw, start);
    if n.Ok? && n.value.HeaderLine? {
      var line := n.value;
      var dct' := Insert(dct, line.key, DecodeValue(mode, line.folded));
      var rest := HeaderLines(raw, line.valueEnd + 1, mode);
      ParseMergesLines(raw, line.valueEnd + 1, dct', mode);
      KvlmParseStep(raw, start, dct, mode, line);
      HeaderLinesStep(raw, start, mode, line, rest);
      if rest.Ok? {
        var ps := [(line.key, DecodeValue(mode, line.folded))] + rest.value.pairs;
        assert ps[1..] == rest.value.pairs;
        assert InsertAll(dct, ps) == InsertAll(dct', rest.value.pairs);
      }
    } else {
      LastStep(raw, start, dct, mode);
    }
  }

  /** The parsed dict, against the header lines of the block: every key's
      values are the values of its lines in encounter order (a single value
      exactly when the key occurs once), the keys are in order of first
      occurrence, and the message is what follows the blank line. */
  lemma ParseSpec(raw: Bytes, mode: ValueDecoding)
    ensures Parse(raw, mode).Ok? <==> HeaderLines(raw, 0, mode).Ok?
    ensures Parse(raw, mode).Ok? ==>
      && Keys(Parse(raw, mode).value.headers) == AddKeys([], HeaderLines(raw, 0, mode).value.pairs)
      && Parse(raw, mode).value.message == HeaderLines(raw, 0, mode).value.message
      && forall k :: Lookup(Parse(raw, mode).value.headers, k) == ValuesFor(HeaderLines(raw, 0, mode).value.pairs, k)
  {
    ParseMergesLines(raw, 0, [], mode);
    if HeaderLines(raw, 0, mode).Ok? {
      var ps := HeaderLines(raw, 0, mode).value.pairs;
      InsertAllKeys([], ps);
      forall k ensures Lookup(InsertAll([], ps), k) == ValuesFor(ps, k) {
        InsertAllLookup([], ps, k);
      }
    }
  }

  /** A buffer that does not start a header line nor a blank line fails
      the source's assert; the empty buffer is one. */
  lemma EmptyBlockRejected()
    ensures Parse([], AsWritten) == Err(HeaderBlockUnterminated)
    ensures Parse([], Unfolded) == Err(HeaderBlockUnterminated)
  {
  }

  /** The block `a b`, `a c`, blank line, `m`. */
  function RepeatedKeyBlock(): Bytes {
    [0x61, SP, 0x62, NL, 0x61, SP, 0x63, NL, NL, 0x6D]
  }

  /** The block splits at the newlines not followed by a space: two header
      lines with key `a`, then a blank line opening the message `m`. */
  lemma RepeatedKeyLines()
    ensures NextLine(RepeatedKeyBlock(), 0) == Ok(HeaderLine([0x61], [0x62], 1, 3))
    ensures NextLine(RepeatedKeyBlock(), 4) == Ok(HeaderLine([0x61], [0x63], 5, 7))
    ensures NextLine(RepeatedKeyBlock(), 8) == Ok(Trailer([0x6D]))
  {
    FirstLine();
    SecondLine();
    var raw := RepeatedKeyBlock();
    assert Find(raw, SP, 8) == -1;
    FindIs(raw, NL, 8, 8);
  }

  lemma FirstLine()
    ensures NextLine(RepeatedKeyBlock(), 0) == Ok(HeaderLine([0x61], [0x62], 1, 3))
  {
    var raw := RepeatedKeyBlock();
    FindIs(raw, SP, 0, 1);
    FindIs(raw, NL, 0, 3);
    FindIs(raw, NL, 1, 3);
    assert ScanValueEnd(raw, 1) == Ok(3);
    assert raw[0..1] == [0x61] && raw[2..3] == [0x62];
  }

  lemma SecondLine()
    ensures NextLine(RepeatedKeyBlock(), 4) == Ok(HeaderLine([0x61], [0x63], 5, 7))
  {
    var raw := RepeatedKeyBlock();
    FindIs(raw, SP, 4, 5);
    FindIs(raw, NL, 4, 7);
    FindIs(raw, NL, 5, 7);
    assert ScanValueEnd(raw, 5) == Ok(7);
    assert raw[4..5] == [0x61] && raw[6..7] == [0x63];
  }

  /** The first value of a key is stored alone; the second turns it into
      a list. */
  lemma InsertTwice(key: Bytes, x: Bytes, y: Bytes)
    ensures Insert([], key, x) == [Header(key, Single(x))]
    ensures Insert([Header(key, Single(x))], key, y) == [Header(key, Multi([x, y]))]
  {
    var d1 := [Header(key, Single(x))];
    assert Keys(d1) == [key];
    FindIs(Keys(d1), key, 0, 0);
  }

  /** `a b`, newline, ` c`: a folded value with no newline after it. */
  function FoldAtEnd(): Bytes {
    [0x61, SP, 0x62, NL, SP, 0x63]
  }

  /** As written, the scan for the end of the value `b`, newline, ` c`
      runs out of newlines and stops at `end == -1`, so the parse of the
      next line starts again at position 0, where this one started: the
      recursion never advances. The model reports the unterminated fold. */
  lemma FoldAtEndRestarts()
    ensures ScanValueEndAsWritten(FoldAtEnd(), 1) == Some(-1)
    ensures NextLine(FoldAtEnd(), 0) == Err(FoldWithoutNewline)
  {
    var raw := FoldAtEnd();
    FindIs(raw, SP, 0, 1);
    FindIs(raw, NL, 0, 3);
    FindIs(raw, NL, 1, 3);
    assert Find(raw, NL, 4) == -1;
    assert ScanValueEnd(raw, 1) == Err(FoldWithoutNewline);
  }
}

=== FILE: object_format.dfy ===
/** The loose-object byte format of gitlitelib.py: the type tags, the
    header `fmt SP decimal-length NUL` that object_write prepends to an
    object's serialisation, and the split of a decompressed buffer back
    into tag and payload that object_read performs. */
module ObjectFormat {
  import opened Results
  import opened Bytes

  /** The four object classes the source dispatches on. */
  datatype ObjectKind = Commit | Tree | Tag | Blob

  /** The `fmt` class attribute: the type tag written into the header. */
  function TagBytes(k: ObjectKind): Bytes {
    match k
    case Commit => [0x63, 0x6F, 0x6D, 0x6D, 0x69, 0x74]  // "commit"
    case Tree => [0x74, 0x72, 0x65, 0x65]                // "tree"
    case Tag => [0x74, 0x61, 0x67]                       // "tag"
    case Blob => [0x62, 0x6C, 0x6F, 0x62]                // "blob"
  }

  /** The four-way `match fmt` that both object_hash and object_read use
      to pick a class; any other tag is rejected. */
  function KindOf(fmt: Bytes): (r: Option<ObjectKind>)
    ensures forall k :: r == Some(k) <==> fmt == TagBytes(k)
  {
    if fmt == TagBytes(Commit) then Some(Commit)
    else if fmt == TagBytes(Tree) then Some(Tree)
    else if fmt == TagBytes(Tag) then Some(Tag)
    else if fmt == TagBytes(Blob) then Some(Blob)
    else None
  }

  /** An object as the classes hold it: its kind and the bytes that its
      `serialize` returns. GitBlob keeps them verbatim as `blobdata`; the
      other three classes are not part of this model and carry their
      payload the same way. */
  datatype GitObject = GitObject(kind: ObjectKind, data: Bytes)

  /** `obj.serialize()`. */
  function Serialize(obj: GitObject): Bytes {
    obj.data
  }

  /** `c(data)`: the class constructor, which hands `data` to `deserialize`. */
  function Construct(kind: ObjectKind, data: Bytes): (obj: GitObject)
    ensures obj.kind == kind
    ensures Serialize(obj) == data
  {
    GitObject(kind, data)
  }

  /** The buffer object_write hashes and compresses:
      `fmt + b" " + str(len(data)).encode() + b"\x00" + data`. */
  function Frame(fmt: Bytes, data: Bytes): (r: Bytes)
    ensures |r| == |fmt| + |Decimal(|data|)| + 2 + |data|
    ensures r[..|fmt|] == fmt && r[|fmt|] == SP
    ensures IsDecimal(r[|fmt| + 1..|r| - |data| - 1]) && DecimalValue(r[|fmt| + 1..|r| - |data| - 1]) == |data|
    ensures r[|r| - |data| - 1] == NUL && r[|r| - |data|..] == data
  {
    var digits := Decimal(|data|);
    var r := fmt + [SP] + digits + [NUL] + data;
    assert r[|fmt| + 1..|r| - |data| - 1] == digits;
    r
  }

  /** `int(raw[x:y].decode("ascii"))`, where the field still starts with
      the header's space: one space, then one or more ASCII digits. */
  function ParseSize(field: Bytes): (r: Option<nat>)
    ensures r.Some? <==> |field| >= 2 && field[0] == SP && forall i :: 1 <= i < |field| ==> IsDigit(field[i])
    ensures r.Some? ==> r.value == DecimalValue(field[1..])
  {
    if |field| >= 2 && field[0] == SP && IsDecimal(field[1..]) then Some(DecimalValue(field[1..]))
    else None
  }

  /** The size field object_write writes reads back as the length it wrote. */
  lemma ParseSizeOfDecimal(n: nat)
    ensures ParseSize([SP] + Decimal(n)) == Some(n)
  {
    assert ([SP] + Decimal(n))[1..] == Decimal(n);
  }

  /** The header split of object_read: the tag runs up to the first space,
      the size field up to the next NUL, and the declared size must equal
      the number of bytes after that NUL. Yields the tag and the payload. */
  function SplitFrame(raw: Bytes): (r: Result<(Bytes, Bytes)>)
    ensures r.Ok? ==> SP !in r.value.0
    ensures r.Ok? ==> |r.value.0| + |r.value.1| < |raw|
    ensures r.Ok? ==> raw[..|r.value.0|] == r.value.0 && raw[|raw| - |r.value.1|..] == r.value.1
  {
    var x := Find(raw, SP, 0);
    if x < 0 then Err(MissingSpace)
    else
      var y := Find(raw, NUL, x);
      if y < 0 then Err(MissingNul)
      else
        match ParseSize(raw[x..y])
        case None => Err(BadSize)
        case Some(size) =>
          if size != |raw| - y - 1 then Err(LengthMismatch)
          else Ok((raw[..x], raw[y + 1..]))
  }

  /** The pure part of object_read: split the header, then dispatch on the
      tag. The length check comes before the tag check, as in the source. */
  function ParseFrame(raw: Bytes): (r: Result<(ObjectKind, Bytes)>)
    ensures r.Ok? ==> SplitFrame(raw) == Ok((TagBytes(r.value.0), r.value.1))
    ensures SplitFrame(raw).Err? ==> r == Err(SplitFrame(raw).error)
    ensures SplitFrame(raw).Ok? && KindOf(SplitFrame(raw).value.0).None? ==> r == Err(UnknownType)
    ensures SplitFrame(raw).Ok? && KindOf(SplitFrame(raw).value.0).Some? ==>
              r == Ok((KindOf(SplitFrame(raw).value.0).value, SplitFrame(raw).value.1))
  {
    match SplitFrame(raw)
    case Err(e) => Err(e)
    case Ok((fmt, payload)) =>
      match KindOf(fmt)
      case None => Err(UnknownType)
      case Some(k) => Ok((k, payload))
  }

  /** object_read's header handling exactly as written, including the case
      where no NUL follows the space: `find` then reports -1, so the size
      field `raw[x:-1]` is the header minus its last byte, the length check
      compares against `len(raw) - (-1) - 1 == len(raw)`, and the payload
      `raw[-1 + 1:]` is the whole buffer. */
  function ParseFrameAsWritten(raw: Bytes): (r: Result<(ObjectKind, Bytes)>)
    ensures NUL in raw[Find(raw, SP, 0) + 1..] ==> r == ParseFrame(raw)
    ensures Find(raw, SP, 0) < 0 ==> r == Err(MissingSpace)
  {
    var x := Find(raw, SP, 0);
    if 0 <= x && Find(raw, NUL, x) < 0 then
      match ParseSize(PySlice(raw, x, -1))
      case None => Err(BadSize)
      case Some(size) =>
        if size != |raw| then Err(LengthMismatch)
        else
          match KindOf(raw[..x])
          case None => Err(UnknownType)
          case Some(k) => Ok((k, raw))
    else ParseFrame(raw)
  }

  /** The header the write side builds is found by the read side's
      `find`s: the first space right after any space-free tag, the next
      NUL right after the digits; the size field between them spells
      `digits` and everything after the NUL is the payload. */
  lemma {:induction false} SplitFrameOfParts(fmt: Bytes, digits: Bytes, data: Bytes)
    requires SP !in fmt
    requires IsDecimal(digits)
    ensures SplitFrame(fmt + [SP] + digits + [NUL] + data)
         == if DecimalValue(digits) == |data| then Ok((fmt, data)) else Err(LengthMismatch)
  {
    var raw := fmt + [SP] + digits + [NUL] + data;
    var x := |fmt|;
    var y := |fmt| + 1 + |digits|;
    assert raw[x] == SP;
    assert forall i :: 0 <= i < x ==> raw[i] == fmt[i];
    assert Find(raw, SP, 0) == x;
    assert raw[y] == NUL;
    assert forall i :: x <= i < y ==> raw[i] != NUL by {
      forall i | x <= i < y ensures raw[i] != NUL {
        if i > x {
          assert raw[i] == digits[i - x - 1];
          assert IsDigit(digits[i - x - 1]);
        }
      }
    }
    assert Find(raw, NUL, x) == y;
    assert raw[x..y] == [SP] + digits;
    assert ([SP] + digits)[1..] == digits;
    assert ParseSize(raw[x..y]) == Some(DecimalValue(digits));
    assert |raw| - y - 1 == |data|;
    assert raw[..x] == fmt;
    assert raw[y + 1..] == data;
  }

  /** Frame round trip: for any tag without a space, the read-side split
      of the framed buffer recovers exactly the tag and the payload, and
      the declared length passes the check. */
  lemma FrameRoundTrip(fmt: Bytes, data: Bytes)
    requires SP !in fmt
    ensures SplitFrame(Frame(fmt, data)) == Ok((fmt, data))
  {
    SplitFrameOfParts(fmt, Decimal(|data|), data);
  }

  /** For the four known tags the whole read side, dispatch included,
      inverts the write side's framing. */
  lemma ParseFrameRoundTrip(k: ObjectKind, data: Bytes)
    ensures ParseFrame(Frame(TagBytes(k), data)) == Ok((k, data))
  {
    FrameRoundTrip(TagBytes(k), data);
  }

  /** A header whose declared size differs from the number of bytes after
      the NUL is rejected as a length mismatch, whatever the tag. */
  lemma LengthMismatchRejected(fmt: Bytes, digits: Bytes, data: Bytes)
    requires SP !in fmt
    requires IsDecimal(digits)
    requires DecimalValue(digits) != |data|
    ensures ParseFrame(fmt + [SP] + digits + [NUL] + data) == Err(LengthMismatch)
  {
    SplitFrameOfParts(fmt, digits, data);
  }

  /** A well-framed buffer is accepted exactly when its tag is one of the
      four known ones; any other tag is an unknown type. */
  lemma UnknownTagRejected(fmt: Bytes, data: Bytes)
    requires SP !in fmt
    ensures ParseFrame(Frame(fmt, data)).Ok? <==> KindOf(fmt).Some?
    ensures KindOf(fmt).None? ==> ParseFrame(Frame(fmt, data)) == Err(UnknownType)
  {
    FrameRoundTrip(fmt, data);
  }

  /** Everything ParseFrame accepts is a framed buffer: a known tag, one
      space, a decimal size equal to the payload length, a NUL, the
      payload. (The size may carry leading zeros, which Frame never writes.) */
  lemma ParseFrameOnlyAcceptsFrames(raw: Bytes)
    requires ParseFrame(raw).Ok?
    ensures exists digits ::
              && IsDecimal(digits)
              && DecimalValue(digits) == |ParseFrame(raw).value.1|
              && raw == TagBytes(ParseFrame(raw).value.0) + [SP] + digits + [NUL] + ParseFrame(raw).value.1
  {
    var x := Find(raw, SP, 0);
    var y := Find(raw, NUL, x);
    var digits := raw[x + 1..y];
    var (k, payload) := ParseFrame(raw).value;
    assert raw[x..y][1..] == digits;
    SplitAround(raw, x, y);
  }

  /** A buffer cut around two positions `x < y`. */
  lemma SplitAround(raw: Bytes, x: nat, y: nat)
    requires x < y < |raw|
    ensures raw == raw[..x] + [raw[x]] + raw[x + 1..y] + [raw[y]] + raw[y + 1..]
  {
    assert raw[..y] == raw[..x] + [raw[x]] + raw[x + 1..y];
    assert raw == raw[..y] + [raw[y]] + raw[y + 1..];
  }

  /** As written, a buffer with no NUL at all can pass the header check:
      for `blob 7X` the size field `raw[4:-1]` is ` 7`, which equals
      `len(raw)`, so the whole buffer comes back as a blob's content. The
      corrected ParseFrame reports the missing NUL. */
  lemma AsWrittenAcceptsMissingNul()
    ensures ParseFrameAsWritten([0x62, 0x6C, 0x6F, 0x62, 0x20, 0x37, 0x58])
         == Ok((Blob, [0x62, 0x6C, 0x6F, 0x62, 0x20, 0x37, 0x58]))
    ensures ParseFrame([0x62, 0x6C, 0x6F, 0x62, 0x20, 0x37, 0x58]) == Err(MissingNul)
  {
    var raw: Bytes := [0x62, 0x6C, 0x6F, 0x62, 0x20, 0x37, 0x58];
    assert Find(raw, SP, 0) == 4;
    assert Find(raw, NUL, 4) == -1;
    assert PySlice(raw, 4, -1) == [0x20, 0x37];
    assert [0x20, 0x37][1..] == [0x37];
    var seven: Bytes := [0x37];
    assert seven[..0] == [];
    assert DecimalValue(seven) == 7;
    assert raw[..4] == TagBytes(Blob);
  }
}

=== FILE: object_store.dfy ===
/** The write-once, content-addressed loose-object store of gitlitelib.py
    (object_write, object_hash and the pure part of object_read). The
    `objects` directory is a map from path to stored bytes; SHA-1 and the
    zlib codec are opaque deterministic functions supplied by the caller. */
module ObjectStore {
  import opened Results
  import opened Bytes
  import opened ObjectFormat

  predicate IsLowerHex(c: char) {
    '0' <= c <= '9' || 'a' <= c <= 'f'
  }

  /** `hashlib.sha1(...).hexdigest()`: forty lower-case hexadecimal digits. */
  type Digest = s: string | |s| == 40 && forall i :: 0 <= i < |s| ==> IsLowerHex(s[i])
    witness "0000000000000000000000000000000000000000"

  /** A file under `.git/objects`: its directory and its file name. */
  datatype ObjectPath = ObjectPath(dir: string, file: string)

  /** The `objects` directory: which files exist, and their bytes. */
  type Store = map<ObjectPath, Bytes>

  /** The foreign code the store calls: SHA-1 with hex rendering,
      `zlib.compress`, and `zlib.decompress` (None when it raises). */
  datatype Backend = Backend(
    sha1: Bytes -> Digest,
    compress: Bytes -> Bytes,
    decompress: Bytes -> Option<Bytes>)

  /** zlib gives back what it was given. */
  ghost predicate Lossless(be: Backend) {
    forall b :: be.decompress(be.compress(b)) == Some(b)
  }

  /** `objects/sha[0:2]/sha[2:]`, where object_write puts an object. */
  function PathOf(sha: string): (p: ObjectPath)
    ensures p.dir + p.file == sha
    ensures |sha| >= 2 ==> |p.dir| == 2
  {
    ObjectPath(PySlice(sha, 0, 2), PySlice(sha, 2, |sha|))
  }

  /** `objects/sha[0:2]/sha[2:1]`, where object_read looks: the file part
      is a slice whose bounds cross, so it is always empty. */
  function PathAsRead(sha: string): (p: ObjectPath)
    ensures p.dir == PathOf(sha).dir
    ensures p.file == []
  {
    ObjectPath(PySlice(sha, 0, 2), PySlice(sha, 2, 1))
  }

  /** Every file in the store sits where object_write puts a digest:
      a two-character directory and a 38-character file name. */
  predicate WellKeyed(store: Store) {
    forall p :: p in store ==> |p.dir| == 2 && |p.file| == 38
  }

  /** Every file decompresses to a buffer whose digest names its path. */
  predicate Consistent(store: Store, be: Backend) {
    forall p :: p in store ==>
      be.decompress(store[p]).Some? && PathOf(be.sha1(be.decompress(store[p]).value)) == p
  }

  /** `after` is `before` with `content` put at `p` unless `p` was taken:
      no existing file changes and no other file appears. */
  predicate WriteOnce(before: Store, after: Store, p: ObjectPath, content: Bytes) {
    && after.Keys == before.Keys + {p}
    && (forall q :: q in before ==> after[q] == before[q])
    && (p !in before ==> after[p] == content)
  }

  /** What object_write returns (the digest) and the store after it; the
      store is absent when no repository was given. */
  datatype Written = Written(sha: Digest, repo: Option<Store>)

  /** object_write: frame the serialised object, hash the frame, and when a
      repository is given store the compressed frame at the digest's path
      unless a file is already there. */
  function ObjectWrite(obj: GitObject, repo: Option<Store>, be: Backend): (w: Written)
    ensures w.sha == be.sha1(Frame(TagBytes(obj.kind), Serialize(obj)))
    ensures w.repo.Some? <==> repo.Some?
    ensures repo.Some? ==>
      WriteOnce(repo.value, w.repo.value, PathOf(w.sha), be.compress(Frame(TagBytes(obj.kind), Serialize(obj))))
  {
    var result := Frame(TagBytes(obj.kind), Serialize(obj));
    var sha := be.sha1(result);
    match repo
    case None => Written(sha, None)
    case Some(store) =>
      var path := PathOf(sha);
      if path in store then Written(sha, Some(store))
      else Written(sha, Some(store[path := be.compress(result)]))
  }

  /** object_hash: pick the class named by `fmt`, build it from the file's
      bytes, and write it; an unknown `fmt` is rejected before anything is
      hashed or stored. */
  function ObjectHash(data: Bytes, fmt: Bytes, repo: Option<Store>, be: Backend): (r: Result<Written>)
    ensures r.Ok? <==> KindOf(fmt).Some?
    ensures r.Err? ==> r.error == UnknownType
    ensures r.Ok? ==> r.value.sha == be.sha1(Frame(fmt, data))
    ensures r.Ok? ==> (r.value.repo.Some? <==> repo.Some?)
    ensures r.Ok? && repo.Some? ==> WriteOnce(repo.value, r.value.repo.value, PathOf(r.value.sha), be.compress(Frame(fmt, data)))
  {
    match KindOf(fmt)
    case None => Err(UnknownType)
    case Some(k) => Ok(ObjectWrite(Construct(k, data), repo, be))
  }

  /** Read the file at `p`: a missing file is NotFound (object_read returns
      None), then decompress, split the header (as written or corrected)
      and build the object. */
  function ReadAt(store: Store, p: ObjectPath, be: Backend, asWritten: bool): (r: Result<GitObject>)
    ensures r == Err(NotFound) <==> p !in store
    ensures p in store && be.decompress(store[p]).None? ==> r == Err(CorruptStream)
    ensures p in store && be.decompress(store[p]).Some? && !asWritten ==>
      match ParseFrame(be.decompress(store[p]).value)
      case Err(e) => r == Err(e)
      case Ok((k, data)) => r.Ok? && r.value.kind == k && Serialize(r.value) == data
  {
    if p !in store then Err(NotFound)
    else
      match be.decompress(store[p])
      case None => Err(CorruptStream)
      case Some(raw) =>
        match if asWritten then ParseFrameAsWritten(raw) else ParseFrame(raw)
        case Err(e) => Err(e)
        case Ok((k, data)) => Ok(Construct(k, data))
  }

  /** object_read with the path object_write uses. */
  function ReadObject(store: Store, sha: string, be: Backend): (r: Result<GitObject>)
    ensures r == Err(NotFound) <==> PathOf(sha) !in store
  {
    ReadAt(store, PathOf(sha), be, false)
  }

  /** object_read exactly as written: the `sha[2:1]` path and the
      as-written header handling. */
  function ReadObjectAsWritten(store: Store, sha: string, be: Backend): (r: Result<GitObject>)
    ensures r == Err(NotFound) <==> PathAsRead(sha) !in store
  {
    ReadAt(store, PathAsRead(sha), be, true)
  }

  /** A digest splits into a two-character directory and a 38-character
      file name that together spell it. */
  lemma DigestPath(sha: Digest)
    ensures PathOf(sha) == ObjectPath(sha[..2], sha[2..])
    ensures |PathOf(sha).dir| == 2 && |PathOf(sha).file| == 38
  {
  }

  /** Writing the same object twice returns the same digest and leaves the
      store exactly as the first write left it. */
  lemma WriteIsIdempotent(obj: GitObject, repo: Option<Store>, be: Backend)
    ensures ObjectWrite(obj, ObjectWrite(obj, repo, be).repo, be) == ObjectWrite(obj, repo, be)
  {
  }

  /** object_write keeps the store well keyed. */
  lemma WritePreservesWellKeyed(obj: GitObject, store: Store, be: Backend)
    requires WellKeyed(store)
    ensures WellKeyed(ObjectWrite(obj, Some(store), be).repo.value)
  {
    DigestPath(ObjectWrite(obj, Some(store), be).sha);
  }

  /** object_write keeps every stored file named by its content's digest. */
  lemma WritePreservesConsistency(obj: GitObject, store: Store, be: Backend)
    requires Lossless(be)
    requires Consistent(store, be)
    ensures Consistent(ObjectWrite(obj, Some(store), be).repo.value, be)
  {
    var result := Frame(TagBytes(obj.kind), Serialize(obj));
    assert be.decompress(be.compress(result)) == Some(result);
  }

  /** Read after write: an object written where no file was before reads
      back as itself. */
  lemma ReadAfterWrite(obj: GitObject, store: Store, be: Backend)
    requires Lossless(be)
    requires PathOf(ObjectWrite(obj, Some(store), be).sha) !in store
    ensures ReadObject(ObjectWrite(obj, Some(store), be).repo.value, ObjectWrite(obj, Some(store), be).sha, be) == Ok(obj)
  {
    var result := Frame(TagBytes(obj.kind), Serialize(obj));
    assert be.decompress(be.compress(result)) == Some(result);
    ParseFrameRoundTrip(obj.kind, obj.data);
  }

  /** As written, object_read finds nothing in any store object_write
      builds: its file name is always empty and no stored file has one. */
  lemma ReadAsWrittenNeverFinds(store: Store, sha: string, be: Backend)
    requires WellKeyed(store)
    ensures ReadObjectAsWritten(store, sha, be) == Err(NotFound)
  {
  }

  /** The consequence for a caller: in a well-keyed store, an object just
      written reads back through the corrected path, and is not found
      through the path object_read uses. */
  lemma WrittenObjectUnreadableAsWritten(obj: GitObject, store: Store, be: Backend)
    requires Lossless(be)
    requires WellKeyed(store)
    requires PathOf(ObjectWrite(obj, Some(store), be).sha) !in store
    ensures ReadObject(ObjectWrite(obj, Some(store), be).repo.value, ObjectWrite(obj, Some(store), be).sha, be) == Ok(obj)
    ensures ReadObjectAsWritten(ObjectWrite(obj, Some(store), be).repo.value, ObjectWrite(obj, Some(store), be).sha, be) == Err(NotFound)
  {
    ReadAfterWrite(obj, store, be);
    WritePreservesWellKeyed(obj, store, be);
  }
}

=== FILE: results.dfy ===
/** Failure-carrying values shared by the object store and the KVLM parser.
    Every exception, failed `assert` and out-of-range index of the Python
    code becomes an `Err` carrying one of the `Error` kinds below. */
module Results {

  datatype Option<+T> = None | Some(value: T)

  datatype Error =
    | NotFound                 // object_read finds no file and returns None
    | CorruptStream            // zlib.decompress rejects the stored bytes
    | MissingSpace             // the framed buffer has no space after the type tag
    | MissingNul               // no NUL ends the size field
    | BadSize                  // int() rejects the size field
    | LengthMismatch           // "Malformed object ...: bad length"
    | UnknownType              // "Unknown type ..." on read, "Unknown type ...!" on hash
    | HeaderBlockUnterminated  // the `assert nl == start` of kvlm_parse
    | ValuePastEnd             // `raw[end+1]` indexes past the end of the buffer
    | FoldWithoutNewline       // `find` reports -1 while skipping continuation lines

  datatype Result<+T> = Ok(value: T) | Err(error: Error)
}
